=== FILE: README.md ===
# Mousey tags, modelled in Dafny

This project models the tag feature of the Mousey Discord moderation bot.
Tags are short named text snippets that belong to a guild, are owned by a
user, and are looked up by name without regard to letter case.

- **The API service** (`packages/api/src/routes/tags.py`) has five routes.
  They are create, search, member listing, partial update and delete. Each is
  modelled as a pure transformer of the tag table. The table is a
  `map<int, Tag>` keyed by tag id. The unique index on
  `(guild_id, LOWER(name))` is the predicate `Tags.Unique`.
- **The query assembly** inside those routes is in module `Queries`. For a
  search, that means the WHERE clauses and the positional arguments bound to
  them. For an update, it means the field list, the parallel value list and
  the parameter positions of the guild and the id. Rows are then evaluated
  against the clauses with each `$n` bound to its argument, as the database
  would do it.
- **The bot** has two parts. `packages/bot/src/plugins/tags/converter.py`
  holds the length gates and the resolution of a typed name to a tag.
  `packages/bot/src/plugins/tags/plugin.py` holds the preview truncation, the
  ownership gate of delete, rename, edit and transfer, and the request each
  command sends.
- **Module `Scenarios`** joins the two sides. It shows what a command's
  request does to the table on the service.

Modules: `Wrappers` (Option), `Text` (lower-casing, substrings, `str.split()`,
decimal numerals), `Tags` (rows, records, the unique index), `Queries`,
`Routes`, `Converter`, `Plugin`, `Scenarios`.

Two things the model takes as parameters:
- **The snowflake generator.** The id it draws is the `tagId` parameter of
  `Routes.Create`.
- **The authorization decorators.** Their verdict is the `admitted` flag of
  `Routes.Guarded`.

Where the search and the member listing do not do what their code evidently
intends, the model keeps both versions; see "## Findings". The rest of the
model builds on the corrected versions, `Routes.Search` and
`Routes.MemberTags`.

## Model

| member | source | states |
|---|---|---|
| `Queries.SearchClauses` | packages/api/src/routes/tags.py:81-92 | The clause list starts with the guild equality and nothing else is the guild. It holds an exact-name clause iff `name` is present and a LIKE clause iff `query` is present. With at most one of them present, it has at most two clauses. |
| `Queries.SearchArgsAsWritten` | packages/api/src/routes/tags.py:86-95 | The arguments are the truthy members of `(guild_id, lower(name), lower('%query%'))`, in that order. A guild id of 0 and an empty name are dropped. The pattern never is. |
| `Queries.SearchArgs` | packages/api/src/routes/tags.py:86-95 | Corrected filter: the guild, then the lowered name if present, then the lowered pattern if present. |
| `Queries.SearchArgsAligned` | packages/api/src/routes/tags.py:81-95 | With only absent parameters dropped, parameter `$i` receives the argument clause `i` was written for. |
| `Queries.SearchArgsAsWrittenCount` | packages/api/src/routes/tags.py:81-95 | The truthiness filter gives one argument per clause iff the guild id is non-zero and `name` is not the empty string. Whenever the counts agree, the arguments are the aligned ones. |
| `Queries.LikePatternMeaning` | packages/api/src/routes/tags.py:90-92 | `LOWER(name) LIKE lower('%q%')` holds iff the lowered query occurs inside the lowered name. |
| `Queries.SearchClausesMeaning` | packages/api/src/routes/tags.py:81-98 | The assembled clauses with their arguments accept a row iff it is in the guild, its lowered name equals the lowered `name` (when given), and it contains the lowered `query` (when given). |
| `Queries.UpdateFields` | packages/api/src/routes/tags.py:148-164 | The field list holds `user_id`, `name` and `content` each iff supplied, in that fixed order, and is empty iff nothing was supplied. |
| `Queries.UpdateValues` | packages/api/src/routes/tags.py:151-164 | The value list has the field list's length, and entry `i` is the value supplied for field `i`. |
| `Queries.UpdateArgsPositions` | packages/api/src/routes/tags.py:166-182 | Assignment `i` reads `$i`. The guild is bound at `idx = |fields|+1` and the id at `idx+1`. |
| `Queries.AssignMeaning` | packages/api/src/routes/tags.py:166-177 | The assembled SET changes exactly the supplied fields to the supplied values and leaves the others, and the guild, as they were. |
| `Routes.Guarded` | packages/api/src/routes/tags.py:37-39 | A request the decorators refuse is answered without running the handler and leaves the table unchanged. An admitted request gets the handler's answer. |
| `Routes.Found` | packages/api/src/routes/tags.py:100-103 | A listing is 404 "None found." iff no row matched. Otherwise it is all the matched rows. |
| `Routes.Create` | packages/api/src/routes/tags.py:40-69 | A missing `user`, `name` or `content` gives 400 with the table unchanged. A `user` object without `id` fails unhandled with a KeyError. Success happens iff the body is complete, the user has an id, the drawn id is unused and the lowered name is free in the guild. On success it returns `{id}` and adds exactly the row `(id, user.id, guild, name, content)`. Every failure leaves the table unchanged. |
| `Routes.CreateDuplicate` | packages/api/src/routes/tags.py:57-67 | With a fresh id and a complete body, the answer is 400 "Duplicate tag name provided." iff the lowered name is already used in the guild. |
| `Routes.CreatePreservesUnique` | packages/api/src/routes/tags.py:57-67 | Create keeps the `(guild_id, LOWER(name))` index unique. |
| `Routes.SearchAsWritten` | packages/api/src/routes/tags.py:75-103 | The search as written. If both parameters are truthy it answers 400 before touching the table. Any listing it returns is non-empty and made of table rows. |
| `Routes.Search` | packages/api/src/routes/tags.py:75-103 | The corrected search never fails unhandled. It answers 400 when both parameters are truthy. Any listing it returns is non-empty and made of table rows. |
| `Routes.SearchMeaning` | packages/api/src/routes/tags.py:81-103 | The search is 400 if both parameters are truthy. Otherwise it returns every guild row passing the name filters and no other, or 404 "None found." when none does. |
| `Routes.SearchAsWrittenFails` | packages/api/src/routes/tags.py:83-98 | The handler as written fails with a parameter-count error iff the exclusivity check passes and the guild id is 0 or `name` is empty. |
| `Routes.SearchAsWrittenAgrees` | packages/api/src/routes/tags.py:81-103 | For a non-zero guild and a non-empty `name`, the handler as written behaves like the corrected search. |
| `Routes.SearchAsWrittenEmptyName` | packages/api/src/routes/tags.py:86-95 | `?name=` in guild 42 fails as written. The corrected search answers it. |
| `Routes.EmptyNameWithQueryNotExclusive` | packages/api/src/routes/tags.py:83-84 | The exclusivity check tests truthiness, so an empty `name` next to a query is not refused. |
| `Routes.MemberTagsAsWritten` | packages/api/src/routes/tags.py:106-115 | The handler reads the path parameter `user_id`. Without it, the request fails with a KeyError. |
| `Routes.MemberTags` | packages/api/src/routes/tags.py:109-131 | The listing with the declared parameter. Any listing it returns is non-empty and made of table rows. |
| `Routes.MemberTagsAsWrittenAlwaysFails` | packages/api/src/routes/tags.py:106-113 | Every request the route `/tags/members/{member_id}` delivers fails as written. |
| `Routes.MemberTagsMeaning` | packages/api/src/routes/tags.py:112-131 | For every segment `int()` reads as the number `u` (`"7"`, `"007"`, `"+7"`, `"-7"`), the answer is the guild rows owned by user `u`, or 404 when there are none. Those rows are exactly the guild listing's rows with that owner. |
| `Routes.MemberTagsOfDecimal` | packages/api/src/routes/tags.py:112-131 | The decimal numeral of a user id lists exactly that user's tags in the guild, or 404. |
| `Routes.MemberTagsInvalidId` | packages/api/src/routes/tags.py:112-115 | The listing answers 400 iff the member segment is not an integer, and then always with 'Invalid "user_id" query param.'. |
| `Routes.Patch` | packages/api/src/routes/tags.py:137-187 | Every answer other than success leaves the table unchanged. |
| `Routes.PatchTarget` | packages/api/src/routes/tags.py:166-182 | With the guild and id bound at `idx` and `idx+1`, the WHERE clause accepts exactly the row with both the guild and the id, or no row. |
| `Routes.PatchRows` | packages/api/src/routes/tags.py:172-182 | Updating the target row writes the patched row there and changes no other row. |
| `Routes.PatchMeaning` | packages/api/src/routes/tags.py:143-187 | No field gives 400. A `user` object without `id` fails unhandled with a KeyError. No row with both guild and id gives 404 "Tag not found.". A new name colliding with another row gives an unhandled uniqueness failure. Otherwise only that row changes, only in the supplied fields, and the updated row is returned. |
| `Routes.PatchPreservesUnique` | packages/api/src/routes/tags.py:172-182 | The update keeps the index unique. |
| `Routes.PatchWithoutNameNeverCollides` | packages/api/src/routes/tags.py:172-182 | On a table with a unique index, an update that does not supply a name cannot fail on the index. |
| `Routes.AffectedCount` | packages/api/src/routes/tags.py:198-200 | `int(status.split()[1])`: the status's second whitespace-separated word read as an integer. A status with fewer than two words fails unhandled with an IndexError, and a non-numeric second word with a ValueError. |
| `Routes.AffectedCountOfStatus` | packages/api/src/routes/tags.py:198-200 | `int(status.split()[1])` reads back the count from every `DELETE n` status. |
| `Routes.Delete` | packages/api/src/routes/tags.py:193-203 | Success happens iff a row has both the guild and the id, and exactly that row is removed. Otherwise the answer is 404 "Tag not found." and the table is unchanged. |
| `Routes.DeleteTwice` | packages/api/src/routes/tags.py:197-203 | A second delete of the same tag answers 404 and changes nothing. |
| `Routes.DeletePreservesUnique` | packages/api/src/routes/tags.py:197-198 | Delete keeps the index unique. |
| `Routes.OnlyAdmittedSuccessChanges` | packages/api/src/routes/tags.py:37-203 | Behind the decorators, a create, update or delete changes the table only when the request is admitted and its handler succeeds. A refused delete answers Denied with the table as it was. |
| `Converter.TagDescription` | packages/bot/src/plugins/tags/converter.py:25-29 | Accepts iff the argument has at most 250 characters, and returns it unchanged. Otherwise it rejects with the description message. |
| `Converter.TagContent` | packages/bot/src/plugins/tags/converter.py:51-55 | Accepts iff at most 1998 characters, unchanged. Otherwise it rejects with "Message must be 1998 or fewer characters.". |
| `Converter.TagName` | packages/bot/src/plugins/tags/converter.py:58-62 | Accepts iff at most 100 characters, unchanged. Otherwise it rejects with "Tag name must be 100 or fewer characters.". |
| `Converter.GatesIdempotent` | packages/bot/src/plugins/tags/converter.py:25-62 | Each gate's accepted output passes the same gate again, unchanged. |
| `Converter.Convert` | packages/bot/src/plugins/tags/converter.py:39-48 | A 404 becomes `BadArgument('Tag "<argument>" not found.')`, and only a 404 does. The result is a tag iff the listing is non-empty. That tag has the first record's name, content, `user_id` as owner, and id. |
| `Converter.ResolveMeaning` | packages/bot/src/plugins/tags/converter.py:39-48 | Against the corrected search, resolution says "not found" iff no guild tag has the name ignoring case. Otherwise it yields such a tag with its stored fields. With the index unique, that tag is the only one. |
| `Converter.ResolveAsWritten` | packages/bot/src/plugins/tags/converter.py:39-48 | Against the search as the service runs it, the same holds for every non-empty name in a guild with a non-zero id: "not found" iff no guild tag has the name, and otherwise a stored tag with that name. |
| `Converter.ResolveEmptyNameAsWritten` | packages/bot/src/plugins/tags/converter.py:39-62 | The name gate accepts the empty name, but against the search as written its lookup always raises the parameter-count failure, whatever the table holds. |
| `Plugin.ShortenContent` | packages/bot/src/plugins/tags/plugin.py:29-32 | Content of at most 30 characters is returned unchanged. Longer content becomes its first 29 characters plus "...", exactly 32 characters. The result never exceeds 32. |
| `Plugin.ShortenContentIdempotent` | packages/bot/src/plugins/tags/plugin.py:29-32 | Shortening twice is shortening once. |
| `Plugin.TagCreate` | packages/bot/src/plugins/tags/plugin.py:40-46 | A request is sent iff name ≤ 100 and content ≤ 1998 characters, with exactly `user`, `name` and `content`. Otherwise the first failing gate's message is the outcome. |
| `Plugin.TagDelete` | packages/bot/src/plugins/tags/plugin.py:74-81 | The delete is sent iff `Plugin.CanMutate` holds: the author owns the tag or has `manage_messages`. Otherwise the reply is "You do not own this tag!" and nothing is sent. |
| `Plugin.TagRename` | packages/bot/src/plugins/tags/plugin.py:83-91 | For a valid name, an update with only `name` is sent iff `Plugin.CanMutate` holds (owner or `manage_messages`). Otherwise the command refuses with "You do not own this tag!". |
| `Plugin.TagEdit` | packages/bot/src/plugins/tags/plugin.py:93-101 | For valid content, an update with only `content` is sent iff `Plugin.CanMutate` holds (owner or `manage_messages`). Otherwise the command refuses with "You do not own this tag!". |
| `Plugin.TagTransfer` | packages/bot/src/plugins/tags/plugin.py:103-111 | An update with only `user` is sent iff `Plugin.CanMutate` holds (owner or `manage_messages`). Otherwise the command refuses with "You do not own this tag!". |
| `Plugin.TagListRequest` | packages/bot/src/plugins/tags/plugin.py:48-54 | Without an owner it requests the guild's tags, and with one it requests exactly that member's tags in the guild. |
| `Plugin.TagListNotFoundReply` | packages/bot/src/plugins/tags/plugin.py:55-59 | A 404 without an owner replies "There are no tags in this server!". With an owner it replies "This user has not made any tags!". |
| `Plugin.UpdatesAreSingleField` | packages/bot/src/plugins/tags/plugin.py:83-111 | Every update the bot sends supplies exactly one field. |
| `Scenarios.CreateThenFind` | packages/api/src/routes/tags.py:57-103 | After a successful create, searching the guild for the name in any letter case returns exactly the new tag. |
| `Scenarios.CreateThenFindAsWritten` | packages/api/src/routes/tags.py:57-103 | The search as written also returns exactly the new tag, for a non-empty probe in a guild with a non-zero id. |
| `Scenarios.DuplicateInAnyCase` | packages/api/src/routes/tags.py:57-67 | A second create in the same guild whose name differs only in case is refused as a duplicate and changes nothing. |
| `Scenarios.SameNameOtherGuild` | packages/api/src/routes/tags.py:57-69 | The same name is still free in another guild. |
| `Scenarios.RenameReachesService` | packages/bot/src/plugins/tags/plugin.py:83-91 | A rename the bot sends changes only the tag's name, when the new name is free in the guild. |
| `Scenarios.EditReachesService` | packages/bot/src/plugins/tags/plugin.py:93-101 | An edit the bot sends changes only the tag's content. |
| `Scenarios.TransferReachesService` | packages/bot/src/plugins/tags/plugin.py:103-111 | A transfer the bot sends changes only the tag's owner. |
| `Scenarios.CreateReachesService` | packages/bot/src/plugins/tags/plugin.py:40-46 | A create the bot sends stores a tag owned by the author with exactly the given name and content, or is refused as a duplicate when the id or the lower-cased name is taken in the guild. |
| `Scenarios.DeleteReachesService` | packages/bot/src/plugins/tags/plugin.py:74-81 | A delete the bot sends removes exactly that tag, or answers 404. |
| `Scenarios.ListWholeGuild` | packages/bot/src/plugins/tags/plugin.py:48-59 | `tag list` replies "There are no tags in this server!" iff the guild has no tag. Otherwise the service lists exactly the guild's tags. |
| `Scenarios.ListWholeGuildAsWritten` | packages/api/src/routes/tags.py:75-103 | In a guild with a non-zero id, the guild listing as written is 404 iff the guild has no tag, and otherwise exactly the guild's tags. |
| `Scenarios.RuleOneWalkThrough` | packages/api/src/routes/tags.py:40-203 | A create / find / edit / delete walk-through in guild 42. Create "rule 1" in guild 42 and find it as "RULE 1". Replace its content and the name is kept. Delete it, and the next update answers 404. |

## Left out

- Transport and I/O are not modelled. That covers Starlette routing, JSON body parsing, database connection handling, Discord message sending, and the paginators with their page formatting.
- The authorization decorators `is_authorized` and `has_permissions` come from modules outside this model. Their verdict is the `admitted` input of `Routes.Guarded`. The status and message of a refusal are not modelled.
- `ensure_user` and the user directory are not modelled. Note that the update route calls `ensure_user` without `await` (tags.py:170), so a new owner is never registered. The foreign-key failure that may follow is not modelled.
- `generate_snowflake` is not modelled. Its id is the `tagId` parameter. A reused id makes the INSERT fail on the primary key, which the handler reports with the same duplicate-name 400.
- The SQL text of `build_search_query` and `build_update_query` is not modelled. The model assumes they number their placeholders `$1, $2, …` in list order, and that the update returns `idx = |fields| + 1`.
- `LOWER` and `str.lower` are modelled as ASCII lower-casing. Unicode case mapping and database collations are not modelled.
- `%` and `_` inside a search query are wildcards to SQL `LIKE`, and a backslash is its default escape character. The model treats all three as literal characters, so a query is a plain substring test. For example, the query `a\` builds the pattern `%a\%`, which in PostgreSQL matches only names ending in `a%`, but in the model matches names containing `a\`.
- JSON `null` members are treated as absent. Members of the wrong JSON type are not modelled, and neither is a `user` that is not an object. The create handler passes a present `null` on to the INSERT, where the result depends on the schema, which is not part of this model.
- `Text.ParseInt` reads an optional sign and ASCII digits. Python's `int()` also accepts surrounding whitespace, underscores and non-ASCII digits. A PostgreSQL status never contains them, but a member path segment could.
- Result order is not modelled. PostgreSQL promises no order, so a listing is any sequence that lists exactly the selected rows (`Tags.Lists`).
- Ids are unbounded integers. That covers guild ids, tag ids, user ids and a parsed member id. The database stores them in 64-bit columns, and the driver fails to encode an out-of-range value, which escapes as a 500. The model answers such requests normally instead. For example, the member segment `99999999999999999999` gets a 404.
- The bot's API client (`mousey.api`) is not part of this model. It is assumed to raise `NotFound` on a 404 and some other exception on other failures, and `serialize_user` is assumed to carry the user's `id`. `get_tags(guild, name=x)` is assumed to send `?name=x` as given, also for an empty `x`; `Converter.ResolveEmptyNameAsWritten` rests on that.
- Converter.ResolveMeaning: is proved against the corrected search. Against the search as written it holds only for a non-empty name in a guild with a non-zero id (`Converter.ResolveAsWritten`). A tag named `""` passes the name gate and can be created, but looking it up as written always raises (`Converter.ResolveEmptyNameAsWritten`), so it is never "not found" and never resolved.
- discord.py's argument parsing and its handling of `BadArgument` are not modelled. A command receives its arguments already split, and its tag already resolved by `Converter.Convert`.
- The `tag` command, which shows a tag's content, is not modelled: it only formats a message.
- Concurrency is not modelled. Each request is one atomic step on the table.

## Findings

| source | as written | input that shows it | evidently intended | confidence | as-written member | corrected member |
|---|---|---|---|---|---|---|
| packages/api/src/routes/tags.py:95 | The arguments are `filter(bool, (guild_id, name, search_query))`. An empty `name` (or guild id 0) is dropped although its clause was added at line 88, so the query has more placeholders than arguments and fails with status 500. | `GET /guilds/42/tags?name=` | Drop only the absent parameters, the same test (`is not None`) that decides which clauses are added | medium, not executed (assumes `build_search_query` gives one placeholder per clause) | `Routes.SearchAsWritten`, shown by `Routes.SearchAsWrittenEmptyName` | `Routes.Search`, proved by `Routes.SearchMeaning` |
| packages/api/src/routes/tags.py:106-113 | The route declares the path parameter `member_id`, but the handler reads `request.path_params['user_id']`. The KeyError is not the caught `ValueError`, so every request fails with status 500. | `GET /guilds/42/tags/members/1` | Read the declared `member_id` | high, not executed | `Routes.MemberTagsAsWritten`, shown by `Routes.MemberTagsAsWrittenAlwaysFails` | `Routes.MemberTags`, proved by `Routes.MemberTagsMeaning` |

=== FILE: converter.dfy ===
/** The bot's argument converters for the tag commands: the length gates on
    tag names, contents and descriptions, and the resolution of a typed name
    to a tag through the search endpoint. */
module Converter {
  import opened Wrappers
  import opened Text
  import opened Tags
  import opened Queries
  import opened Routes

  /** What a converter yields: the value, a `commands.BadArgument` with its
      message, or some other exception raised through it. */
  datatype Converted<+T> = Accepted(value: T) | BadArgument(message: string) | Raised(reason: string)

  const MaxDescriptionLength := 250
  const MaxContentLength := 1998
  const MaxNameLength := 100

  const DescriptionTooLong := "Description must be 250 or fewer characters."
  const ContentTooLong := "Message must be 1998 or fewer characters."
  const NameTooLong := "Tag name must be 100 or fewer characters."

  /** The shared shape of the three gates: the argument unchanged when it has
      at most `limit` characters, otherwise `message`. */
  function AtMost(argument: string, limit: nat, message: string): Converted<string> {
    if |argument| <= limit then Accepted(argument) else BadArgument(message)
  }

  /** `tag_description`. */
  function TagDescription(argument: string): (r: Converted<string>)
    ensures r.Accepted? <==> |argument| <= 250
    ensures r.Accepted? ==> r.value == argument
    ensures !r.Accepted? ==> r == BadArgument(DescriptionTooLong)
  {
    AtMost(argument, MaxDescriptionLength, DescriptionTooLong)
  }

  /** `tag_content`. */
  function TagContent(argument: string): (r: Converted<string>)
    ensures r.Accepted? <==> |argument| <= 1998
    ensures r.Accepted? ==> r.value == argument
    ensures !r.Accepted? ==> r == BadArgument(ContentTooLong)
  {
    AtMost(argument, MaxContentLength, ContentTooLong)
  }

  /** `tag_name`. */
  function TagName(argument: string): (r: Converted<string>)
    ensures r.Accepted? <==> |argument| <= 100
    ensures r.Accepted? ==> r.value == argument
    ensures !r.Accepted? ==> r == BadArgument(NameTooLong)
  {
    AtMost(argument, MaxNameLength, NameTooLong)
  }

  /** Each gate returns what it accepts unchanged, so its output passes it again. */
  lemma GatesIdempotent(argument: string)
    ensures TagDescription(argument).Accepted? ==> TagDescription(TagDescription(argument).value) == TagDescription(argument)
    ensures TagContent(argument).Accepted? ==> TagContent(TagContent(argument).value) == TagContent(argument)
    ensures TagName(argument).Accepted? ==> TagName(TagName(argument).value) == TagName(argument)
  {
  }

  // ---------------------------------------------------------------------------
  // Tag resolution
  // ---------------------------------------------------------------------------

  /** The bot's view of a tag. */
  datatype ClientTag = ClientTag(name: string, content: string, ownerId: int, id: int)

  /** A tag built from one search record: the owner is the record's `user_id`. */
  function FromRecord(r: Record): ClientTag {
    ClientTag(r.name, r.content, r.userId, r.id)
  }

  function NotFoundMessage(argument: string): string {
    "Tag \"" + argument + "\" not found."
  }

  /** The search `Tag.convert` issues: the invoking guild and the argument as exact name. */
  function ResolveQuery(argument: string): (Option<string>, Option<string>) {
    (Some(argument), None)
  }

  /** `Tag.convert` on the API client's answer to that search: a 404 becomes a
      "not found" `BadArgument`, a listing gives its first record, and any
      other failure propagates. */
  function Convert(argument: string, resp: Response<seq<Record>>): (r: Converted<ClientTag>)
    ensures resp.NotFound? ==> r == BadArgument(NotFoundMessage(argument))
    ensures r.Accepted? <==> resp.Ok? && |resp.value| > 0
    ensures r.Accepted? ==> r.value == FromRecord(resp.value[0])
    ensures r.BadArgument? ==> resp.NotFound?
  {
    match resp
    case NotFound(_) => BadArgument(NotFoundMessage(argument))
    case Ok(records) => if |records| == 0 then Raised("IndexError") else Accepted(FromRecord(records[0]))
    case BadRequest(message) => Raised(message)
    case Unhandled(reason) => Raised(reason)
    case Denied => Raised("Forbidden")
  }

  /** The bot receives the server's answer: a listing arrives as the records of
      exactly the selected rows, in an order the database chooses. */
  ghost predicate Delivers(server: Response<Table>, client: Response<seq<Record>>) {
    match server
    case Ok(rows) => client.Ok? && Lists(client.value, rows)
    case BadRequest(m) => client == BadRequest(m)
    case NotFound(m) => client == NotFound(m)
    case Unhandled(x) => client == Unhandled(x)
    case Denied => client == Denied
  }

  /** Resolving a typed name against the tag table: it fails with the "not
      found" message exactly when no tag of the guild has that name ignoring
      case, and otherwise yields such a tag with its stored fields; with the
      unique index in place, the only one. */
  lemma ResolveMeaning(t: Table, guild: int, argument: string, client: Response<seq<Record>>)
    requires Delivers(Search(t, guild, ResolveQuery(argument).0, ResolveQuery(argument).1), client)
    ensures Convert(argument, client) == BadArgument(NotFoundMessage(argument)) <==> !NameTaken(t, guild, argument)
    ensures Convert(argument, client).Accepted? <==> NameTaken(t, guild, argument)
    ensures Convert(argument, client).Accepted? ==>
              var c := Convert(argument, client).value;
              && c.id in t
              && t[c.id].guildId == guild && Lower(t[c.id].name) == Lower(argument)
              && c == ClientTag(t[c.id].name, t[c.id].content, t[c.id].userId, c.id)
    ensures Unique(t) && Convert(argument, client).Accepted? ==>
              forall id :: id in t && t[id].guildId == guild && Lower(t[id].name) == Lower(argument)
                ==> id == Convert(argument, client).value.id
  {
    var name, query := Some(argument), None;
    SearchMeaning(t, guild, name, query);
    var rows := Matching(t, guild, name, query);
    if NameTaken(t, guild, argument) {
      var id :| id in t && t[id].guildId == guild && Lower(t[id].name) == Lower(argument);
      assert id in rows;
      assert client.Ok? && Lists(client.value, rows);
      var i :| 0 <= i < |client.value| && client.value[i].id == id;
      var c := Convert(argument, client).value;
      assert client.value[0].id in rows;
      if Unique(t) {
        forall id' | id' in t && t[id'].guildId == guild && Lower(t[id'].name) == Lower(argument)
          ensures id' == c.id
        {
          if id' != c.id {
            assert SameKey(t[id'], t[c.id]);
          }
        }
      }
    }
    assert (exists id :: id in rows) <==> NameTaken(t, guild, argument);
    EmptyTable(rows);
  }

  /** Against the search as the service runs it, resolution means the same
      for every name except the empty one, in a guild with a non-zero id. */
  lemma ResolveAsWritten(t: Table, guild: int, argument: string, client: Response<seq<Record>>)
    requires guild != 0 && argument != ""
    requires Delivers(SearchAsWritten(t, guild, ResolveQuery(argument).0, ResolveQuery(argument).1), client)
    ensures Convert(argument, client) == BadArgument(NotFoundMessage(argument)) <==> !NameTaken(t, guild, argument)
    ensures Convert(argument, client).Accepted? <==> NameTaken(t, guild, argument)
    ensures Convert(argument, client).Accepted? ==>
              var c := Convert(argument, client).value;
              && c.id in t
              && t[c.id].guildId == guild && Lower(t[c.id].name) == Lower(argument)
              && c == ClientTag(t[c.id].name, t[c.id].content, t[c.id].userId, c.id)
  {
    SearchAsWrittenAgrees(t, guild, Some(argument), None);
    ResolveMeaning(t, guild, argument, client);
  }

  /** The empty name, which the name gate accepts, never resolves against the
      search as written: the lookup fails unhandled, whatever the table holds. */
  lemma ResolveEmptyNameAsWritten(t: Table, guild: int, client: Response<seq<Record>>)
    requires Delivers(SearchAsWritten(t, guild, ResolveQuery("").0, ResolveQuery("").1), client)
    ensures TagName("").Accepted?
    ensures Convert("", client) == Raised(ParameterCountMismatch)
  {
    SearchAsWrittenFails(t, guild, Some(""), None);
  }
}

=== FILE: plugin.dfy ===
/** The bot's tag commands: the content preview, the ownership gate shared by
    delete, rename, edit and transfer, the request each command sends and the
    reply it gives. Sending the request and the reply is left to the caller:
    a command here decides what to send. */
module Plugin {
  import opened Wrappers
  import opened Routes
  import opened Converter

  // ---------------------------------------------------------------------------
  // Preview
  // ---------------------------------------------------------------------------

  const PreviewLimit := 30
  const Ellipsis := "..."

  /** `shorten_content`: a content longer than 30 characters is cut to its
      first 29 and marked with an ellipsis. */
  function ShortenContent(content: string): (r: string)
    ensures |content| <= 30 ==> r == content
    ensures |content| > 30 ==> |r| == 32 && content[..29] <= r && r[29..] == Ellipsis
    ensures |r| <= 32
  {
    if |content| > PreviewLimit then content[0..29] + Ellipsis else content
  }

  /** Shortening a preview again changes nothing. */
  lemma ShortenContentIdempotent(content: string)
    ensures ShortenContent(ShortenContent(content)) == ShortenContent(content)
  {
    var r := ShortenContent(content);
    if |content| > 30 {
      assert r[0..29] == content[0..29];
    }
  }

  // ---------------------------------------------------------------------------
  // Requests and the ownership gate
  // ---------------------------------------------------------------------------

  /** The invoking member: their id and whether they hold `manage_messages` in the guild. */
  datatype Author = Author(id: int, manageMessages: bool)

  /** `serialize_user`, as far as the service reads it: the id. */
  function SerializeUser(userId: int): UserObject {
    UserObject(Some(userId))
  }

  /** A call the bot makes on the tag service. */
  datatype ApiRequest =
    | CreateTag(guild: int, body: Body)
    | UpdateTag(guild: int, id: int, body: Body)
    | DeleteTag(guild: int, id: int)
    | GetTags(guild: int)
    | GetMemberTags(guild: int, member: int)

  /** What a command does: send one request and, only if the service call
      does not raise, then the reply; refuse with a reply and send nothing;
      or stop at a rejected argument. */
  datatype Action =
    | Send(request: ApiRequest, reply: string)
    | Refuse(reply: string)
    | Reject(message: string)

  const NotOwnerReply := "You do not own this tag!"
  const CreatedReply := "Tag successfully created!"

  /** The gate of the four mutating commands: the author owns the tag or may manage messages. */
  predicate CanMutate(tag: ClientTag, author: Author) {
    tag.ownerId == author.id || author.manageMessages
  }

  /** A converter's rejection as the command's outcome. */
  function Rejection<T>(c: Converted<T>): Action
    requires !c.Accepted?
  {
    match c
    case BadArgument(m) => Reject(m)
    case Raised(x) => Reject(x)
  }

  // ---------------------------------------------------------------------------
  // Commands
  // ---------------------------------------------------------------------------

  /** `tag create <name> <content>`: the name is converted first, then the content. */
  function TagCreate(guild: int, author: Author, name: string, content: string): (a: Action)
    ensures a.Send? <==> |name| <= 100 && |content| <= 1998
    ensures a.Send? ==> a.request == CreateTag(guild, Body(Some(SerializeUser(author.id)), Some(name), Some(content)))
    ensures |name| > 100 ==> a == Reject(NameTooLong)
    ensures |name| <= 100 && |content| > 1998 ==> a == Reject(ContentTooLong)
  {
    var n := TagName(name);
    if !n.Accepted? then Rejection(n)
    else
      var c := TagContent(content);
      if !c.Accepted? then Rejection(c)
      else Send(CreateTag(guild, Body(Some(SerializeUser(author.id)), Some(n.value), Some(c.value))), CreatedReply)
  }

  /** `tag delete <tag>`. */
  function TagDelete(guild: int, author: Author, tag: ClientTag): (a: Action)
    ensures a.Send? <==> CanMutate(tag, author)
    ensures !a.Send? ==> a == Refuse(NotOwnerReply)
    ensures a.Send? ==> a.request == DeleteTag(guild, tag.id)
  {
    if CanMutate(tag, author) then Send(DeleteTag(guild, tag.id), "Tag " + tag.name + " successfully deleted.")
    else Refuse(NotOwnerReply)
  }

  /** `tag rename <tag> <new_name>`: sends only the new name. */
  function TagRename(guild: int, author: Author, tag: ClientTag, newName: string): (a: Action)
    ensures a.Send? <==> |newName| <= 100 && CanMutate(tag, author)
    ensures a.Refuse? <==> |newName| <= 100 && !CanMutate(tag, author)
    ensures a.Refuse? ==> a.reply == NotOwnerReply
    ensures a.Send? ==> a.request == UpdateTag(guild, tag.id, Body(None, Some(newName), None))
  {
    var n := TagName(newName);
    if !n.Accepted? then Rejection(n)
    else if CanMutate(tag, author) then
      Send(UpdateTag(guild, tag.id, Body(None, Some(n.value), None)),
           "Tag " + tag.name + " successfully renamed to " + n.value + ".")
    else Refuse(NotOwnerReply)
  }

  /** `tag edit <tag> <new_content>`: sends only the new content. */
  function TagEdit(guild: int, author: Author, tag: ClientTag, newContent: string): (a: Action)
    ensures a.Send? <==> |newContent| <= 1998 && CanMutate(tag, author)
    ensures a.Refuse? <==> |newContent| <= 1998 && !CanMutate(tag, author)
    ensures a.Refuse? ==> a.reply == NotOwnerReply
    ensures a.Send? ==> a.request == UpdateTag(guild, tag.id, Body(None, None, Some(newContent)))
  {
    var c := TagContent(newContent);
    if !c.Accepted? then Rejection(c)
    else if CanMutate(tag, author) then
      Send(UpdateTag(guild, tag.id, Body(None, None, Some(c.value))),
           "Tag " + tag.name + " successfully edited to have new content: " + ShortenContent(c.value) + ".")
    else Refuse(NotOwnerReply)
  }

  /** `tag transfer <tag> <new_owner>`: sends only the new owner; `display`
      is how the member prints in the reply. */
  function TagTransfer(guild: int, author: Author, tag: ClientTag, newOwner: int, display: string): (a: Action)
    ensures a.Send? <==> CanMutate(tag, author)
    ensures !a.Send? ==> a == Refuse(NotOwnerReply)
    ensures a.Send? ==> a.request == UpdateTag(guild, tag.id, Body(Some(SerializeUser(newOwner)), None, None))
  {
    if CanMutate(tag, author) then
      Send(UpdateTag(guild, tag.id, Body(Some(SerializeUser(newOwner)), None, None)),
           "Tag " + tag.name + " successfully transferred to " + display + ".")
    else Refuse(NotOwnerReply)
  }

  /** `tag list [owner]`: the request for the server's tags, or one member's. */
  function TagListRequest(guild: int, owner: Option<int>): (r: ApiRequest)
    ensures r.guild == guild
    ensures r.GetTags? <==> owner.None?
    ensures r.GetMemberTags? ==> r.member == owner.value
    ensures owner.Some? ==> r == GetMemberTags(guild, owner.value)
  {
    if owner.None? then GetTags(guild) else GetMemberTags(guild, owner.value)
  }

  /** The reply of `tag list` when the service answers 404. */
  function TagListNotFoundReply(owner: Option<int>): (reply: string)
    ensures owner.None? ==> reply == "There are no tags in this server!"
    ensures owner.Some? ==> reply == "This user has not made any tags!"
  {
    if owner.None? then "There are no tags in this server!" else "This user has not made any tags!"
  }

  /** How many of `user`, `name` and `content` a body supplies. */
  function FieldCount(body: Body): nat {
    (if body.user.Some? then 1 else 0) + (if body.name.Some? then 1 else 0) + (if body.content.Some? then 1 else 0)
  }

  /** Every update the bot sends supplies exactly one field, so none meets the
      service's "at least one field" refusal. */
  lemma UpdatesAreSingleField(guild: int, author: Author, tag: ClientTag, value: string, newOwner: int, display: string)
    ensures TagRename(guild, author, tag, value).Send? ==> FieldCount(TagRename(guild, author, tag, value).request.body) == 1
    ensures TagEdit(guild, author, tag, value).Send? ==> FieldCount(TagEdit(guild, author, tag, value).request.body) == 1
    ensures TagTransfer(guild, author, tag, newOwner, display).Send? ==>
              FieldCount(TagTransfer(guild, author, tag, newOwner, display).request.body) == 1
  {
  }
}

=== FILE: queries.dfy ===
/** Query assembly of the tag routes: the WHERE clauses and positional
    arguments of the search, and the SET field list, value list and parameter
    positions of the partial update. The SQL text that `build_search_query`
    and `build_update_query` produce is not modelled; what is modelled is the
    list handed to them, the arguments bound alongside, and what a row must
    satisfy once each `$n` is bound. */
module Queries {
  import opened Wrappers
  import opened Text
  import opened Tags

  // ---------------------------------------------------------------------------
  // Positional arguments
  // ---------------------------------------------------------------------------

  /** A value bound to a `$n` parameter. */
  datatype Arg = IntArg(i: int) | TextArg(s: string)

  /** The value bound to `$pos` (positions count from 1), if there is one. */
  function Param(args: seq<Arg>, pos: int): Option<Arg> {
    if 1 <= pos <= |args| then Some(args[pos - 1]) else None
  }

  /** Python's `bool()` on one member of an argument tuple: `None`, an int or a str. */
  predicate Truthy(a: Option<Arg>) {
    match a
    case None => false
    case Some(IntArg(i)) => i != 0
    case Some(TextArg(s)) => |s| > 0
  }

  /** A query parameter that is present and truthy. */
  predicate NonEmpty(s: Option<string>) {
    s.Some? && |s.value| > 0
  }

  // ---------------------------------------------------------------------------
  // Search: clauses
  // ---------------------------------------------------------------------------

  /** The WHERE fragments the search collects, each waiting for one parameter:
      `guild_id = `, `LOWER(name) = ` and `LOWER(name) LIKE `. */
  datatype Clause = GuildIs | NameIs | NameLike

  /** The clause list: guild equality first, then one clause per parameter that is present. */
  function SearchClauses(name: Option<string>, query: Option<string>): (cs: seq<Clause>)
    ensures |cs| >= 1 && cs[0] == GuildIs && GuildIs !in cs[1..]
    ensures NameIs in cs <==> name.Some?
    ensures NameLike in cs <==> query.Some?
    ensures name.None? || query.None? ==> |cs| <= 2
  {
    [GuildIs] + (if name.Some? then [NameIs] else []) + (if query.Some? then [NameLike] else [])
  }

  // ---------------------------------------------------------------------------
  // Search: arguments
  // ---------------------------------------------------------------------------

  /** The LIKE pattern built from a search query: `f'%{query}%'.lower()`. */
  function LikePattern(query: string): (p: string)
    ensures p == "%" + Lower(query) + "%"
  {
    LowerConcat("%", query + "%");
    LowerConcat(query, "%");
    Lower("%" + query + "%")
  }

  /** The tuple `(guild_id, name, search_query)` after lower-casing; `None` for an absent parameter. */
  function SearchCandidates(guild: int, name: Option<string>, query: Option<string>): seq<Option<Arg>> {
    [ Some(IntArg(guild)),
      if name.Some? then Some(TextArg(Lower(name.value))) else None,
      if query.Some? then Some(TextArg(LikePattern(query.value))) else None ]
  }

  /** `tuple(filter(bool, xs))`: the truthy members, in order. */
  function KeepTruthy(xs: seq<Option<Arg>>): (r: seq<Arg>)
    ensures |r| <= |xs|
    ensures forall i :: 0 <= i < |r| ==> Truthy(Some(r[i]))
  {
    if xs == [] then []
    else (if Truthy(xs[0]) then [xs[0].value] else []) + KeepTruthy(xs[1..])
  }

  /** The present members, in order: the filter that drops exactly the absent parameters. */
  function KeepPresent(xs: seq<Option<Arg>>): (r: seq<Arg>)
    ensures |r| <= |xs|
  {
    if xs == [] then []
    else (if xs[0].Some? then [xs[0].value] else []) + KeepPresent(xs[1..])
  }

  /** The arguments the search handler binds: the truthy members of
      `(guild_id, name, search_query)`, in that order. A guild id of 0 and an
      empty `name` are falsy and are dropped; the LIKE pattern never is. */
  function SearchArgsAsWritten(guild: int, name: Option<string>, query: Option<string>): (args: seq<Arg>)
    ensures args ==
      (if guild != 0 then [IntArg(guild)] else [])
      + (if NonEmpty(name) then [TextArg(Lower(name.value))] else [])
      + (if query.Some? then [TextArg(LikePattern(query.value))] else [])
  {
    var xs := SearchCandidates(guild, name, query);
    assert xs[1..][1..] == [xs[2]] && xs[1..][1..][1..] == [];
    assert KeepTruthy([xs[2]]) == (if Truthy(xs[2]) then [xs[2].value] else []);
    assert KeepTruthy(xs[1..]) == (if Truthy(xs[1]) then [xs[1].value] else []) + KeepTruthy([xs[2]]);
    KeepTruthy(xs)
  }

  /** The arguments with only the absent parameters dropped: one per clause. */
  function SearchArgs(guild: int, name: Option<string>, query: Option<string>): (args: seq<Arg>)
    ensures args ==
      [IntArg(guild)]
      + (if name.Some? then [TextArg(Lower(name.value))] else [])
      + (if query.Some? then [TextArg(LikePattern(query.value))] else [])
  {
    var xs := SearchCandidates(guild, name, query);
    assert xs[1..][1..] == [xs[2]] && xs[1..][1..][1..] == [];
    assert KeepPresent([xs[2]]) == (if xs[2].Some? then [xs[2].value] else []);
    assert KeepPresent(xs[1..]) == (if xs[1].Some? then [xs[1].value] else []) + KeepPresent([xs[2]]);
    KeepPresent(xs)
  }

  /** The argument each clause is written for. */
  function IntendedArg(c: Clause, guild: int, name: Option<string>, query: Option<string>): Arg {
    match c
    case GuildIs => IntArg(guild)
    case NameIs => TextArg(Lower(name.GetOr("")))
    case NameLike => TextArg(LikePattern(query.GetOr("")))
  }

  /** Parameter `$i` of the WHERE clause receives the argument clause `i` was written for. */
  predicate Aligned(cs: seq<Clause>, args: seq<Arg>, guild: int, name: Option<string>, query: Option<string>) {
    |args| == |cs| && forall i :: 0 <= i < |cs| ==> args[i] == IntendedArg(cs[i], guild, name, query)
  }

  /** With only absent parameters dropped, every clause gets its own argument. */
  lemma SearchArgsAligned(guild: int, name: Option<string>, query: Option<string>)
    ensures Aligned(SearchClauses(name, query), SearchArgs(guild, name, query), guild, name, query)
  {
  }

  /** With the truthiness filter, the argument count matches the clause count
      exactly when neither the guild id is 0 nor `name` is the empty string;
      and whenever the counts match, the arguments are the aligned ones. */
  lemma SearchArgsAsWrittenCount(guild: int, name: Option<string>, query: Option<string>)
    ensures |SearchArgsAsWritten(guild, name, query)| == |SearchClauses(name, query)|
            <==> guild != 0 && name != Some("")
    ensures |SearchArgsAsWritten(guild, name, query)| == |SearchClauses(name, query)|
            ==> SearchArgsAsWritten(guild, name, query) == SearchArgs(guild, name, query)
  {
  }

  // ---------------------------------------------------------------------------
  // Search: what a row must satisfy
  // ---------------------------------------------------------------------------

  /** SQL `s LIKE p` for the patterns the search builds: a pattern wrapped in
      `%` asks for a substring; `%` and `_` inside it are taken literally. */
  predicate Like(s: string, p: string) {
    if |p| >= 2 && p[0] == '%' && p[|p| - 1] == '%' then IsSubstring(p[1..|p| - 1], s) else s == p
  }

  /** One clause with its bound argument holds of a row. */
  predicate Holds(c: Clause, a: Arg, tag: Tag) {
    match (c, a)
    case (GuildIs, IntArg(g)) => tag.guildId == g
    case (NameIs, TextArg(n)) => Lower(tag.name) == n
    case (NameLike, TextArg(p)) => Like(Lower(tag.name), p)
    case _ => false
  }

  /** The conjunction of the clauses, clause `i` bound to `args[i]`. */
  predicate Satisfies(cs: seq<Clause>, args: seq<Arg>, tag: Tag)
    requires |cs| == |args|
  {
    forall i :: 0 <= i < |cs| ==> Holds(cs[i], args[i], tag)
  }

  /** The search filter stated directly: the guild, then a case-insensitive
      exact name and a case-insensitive substring, each when given. */
  predicate SearchSpec(guild: int, name: Option<string>, query: Option<string>, tag: Tag) {
    && tag.guildId == guild
    && (name.Some? ==> Lower(tag.name) == Lower(name.value))
    && (query.Some? ==> IsSubstring(Lower(query.value), Lower(tag.name)))
  }

  /** A LIKE against the search pattern is a substring test of the lower-cased query. */
  lemma LikePatternMeaning(s: string, query: string)
    ensures Like(s, LikePattern(query)) <==> IsSubstring(Lower(query), s)
  {
    var p := LikePattern(query);
    assert p[1..|p| - 1] == Lower(query);
  }

  /** The assembled clauses with their arguments select exactly the rows the filter describes. */
  lemma SearchClausesMeaning(guild: int, name: Option<string>, query: Option<string>, tag: Tag)
    ensures Satisfies(SearchClauses(name, query), SearchArgs(guild, name, query), tag)
            <==> SearchSpec(guild, name, query, tag)
  {
    var cs := SearchClauses(name, query);
    var args := SearchArgs(guild, name, query);
    SearchArgsAligned(guild, name, query);
    if query.Some? {
      LikePatternMeaning(Lower(tag.name), query.value);
    }
    if Satisfies(cs, args, tag) {
      assert Holds(cs[0], args[0], tag);
      if name.Some? {
        assert Holds(cs[1], args[1], tag);
      }
      if query.Some? {
        assert Holds(cs[|cs| - 1], args[|cs| - 1], tag);
      }
    }
  }

  // ---------------------------------------------------------------------------
  // Partial update
  // ---------------------------------------------------------------------------

  /** A column the update may assign. */
  datatype Field = UserIdField | NameField | ContentField

  function FieldRank(f: Field): nat {
    match f
    case UserIdField => 0
    case NameField => 1
    case ContentField => 2
  }

  /** The `names` list: the supplied fields in the fixed order `user_id, name, content`. */
  function UpdateFields(userId: Option<int>, name: Option<string>, content: Option<string>): (fs: seq<Field>)
    ensures UserIdField in fs <==> userId.Some?
    ensures NameField in fs <==> name.Some?
    ensures ContentField in fs <==> content.Some?
    ensures forall i, j :: 0 <= i < j < |fs| ==> FieldRank(fs[i]) < FieldRank(fs[j])
    ensures |fs| == 0 <==> userId.None? && name.None? && content.None?
  {
    (if userId.Some? then [UserIdField] else [])
    + (if name.Some? then [NameField] else [])
    + (if content.Some? then [ContentField] else [])
  }

  /** The value supplied for a field. */
  function FieldValue(f: Field, userId: Option<int>, name: Option<string>, content: Option<string>): Arg {
    match f
    case UserIdField => IntArg(userId.GetOr(0))
    case NameField => TextArg(name.GetOr(""))
    case ContentField => TextArg(content.GetOr(""))
  }

  /** The `updates` list, built alongside `names`. */
  function UpdateValues(userId: Option<int>, name: Option<string>, content: Option<string>): (vs: seq<Arg>)
    ensures |vs| == |UpdateFields(userId, name, content)|
    ensures forall i :: 0 <= i < |vs| ==>
              vs[i] == FieldValue(UpdateFields(userId, name, content)[i], userId, name, content)
  {
    (if userId.Some? then [IntArg(userId.value)] else [])
    + (if name.Some? then [TextArg(name.value)] else [])
    + (if content.Some? then [TextArg(content.value)] else [])
  }

  /** The second result of `build_update_query`: the first parameter position
      after the assignments `field_1 = $1, ..., field_n = $n`. */
  function NextParam(fields: seq<Field>): nat {
    |fields| + 1
  }

  /** The arguments of the UPDATE: `*updates, guild_id, tag_id`. */
  function UpdateArgs(values: seq<Arg>, guild: int, id: int): seq<Arg> {
    values + [IntArg(guild), IntArg(id)]
  }

  /** Assignment `i` reads `$i`, and the guild and id of the WHERE clause,
      placed at `idx` and `idx + 1`, read the guild and the id. */
  lemma UpdateArgsPositions(userId: Option<int>, name: Option<string>, content: Option<string>, guild: int, id: int)
    ensures var fs := UpdateFields(userId, name, content);
            var args := UpdateArgs(UpdateValues(userId, name, content), guild, id);
            && |args| == NextParam(fs) + 1
            && (forall p :: 1 <= p <= |fs| ==> Param(args, p) == Some(FieldValue(fs[p - 1], userId, name, content)))
            && Param(args, NextParam(fs)) == Some(IntArg(guild))
            && Param(args, NextParam(fs) + 1) == Some(IntArg(id))
  {
  }

  /** One assignment `field = value`. */
  function SetField(tag: Tag, f: Field, a: Arg): Tag {
    match (f, a)
    case (UserIdField, IntArg(u)) => tag.(userId := u)
    case (NameField, TextArg(n)) => tag.(name := n)
    case (ContentField, TextArg(c)) => tag.(content := c)
    case _ => tag
  }

  /** `SET fields[0] = $1, fields[1] = $2, ...` applied to one row. */
  function Assign(tag: Tag, fields: seq<Field>, args: seq<Arg>): (r: Tag)
    requires |fields| <= |args|
    ensures r.guildId == tag.guildId
    decreases |fields|
  {
    if fields == [] then tag else Assign(SetField(tag, fields[0], args[0]), fields[1..], args[1..])
  }

  /** Assigning two field lists one after the other is assigning their concatenation. */
  lemma {:induction false} AssignConcat(tag: Tag, f1: seq<Field>, a1: seq<Arg>, f2: seq<Field>, a2: seq<Arg>)
    requires |f1| == |a1| && |f2| <= |a2|
    ensures Assign(tag, f1 + f2, a1 + a2) == Assign(Assign(tag, f1, a1), f2, a2)
    decreases |f1|
  {
    if f1 == [] {
      assert f1 + f2 == f2 && a1 + a2 == a2;
    } else {
      assert (f1 + f2)[1..] == f1[1..] + f2;
      assert (a1 + a2)[1..] == a1[1..] + a2;
      AssignConcat(SetField(tag, f1[0], a1[0]), f1[1..], a1[1..], f2, a2);
    }
  }

  /** Assigning at most one field is one `SetField`, whatever arguments follow. */
  lemma AssignAtMostOne(tag: Tag, fs: seq<Field>, vs: seq<Arg>, rest: seq<Arg>)
    requires |fs| == |vs| <= 1
    ensures Assign(tag, fs, vs + rest) == if fs == [] then tag else SetField(tag, fs[0], vs[0])
  {
    if fs != [] {
      assert (vs + rest)[0] == vs[0];
      assert fs[1..] == [];
    }
  }

  /** Three optional assignments in a row, followed by further arguments. */
  lemma AssignThree(tag: Tag, fu: seq<Field>, vu: seq<Arg>, fn: seq<Field>, vn: seq<Arg>,
                    fc: seq<Field>, vc: seq<Arg>, tail: seq<Arg>)
    requires |fu| == |vu| <= 1 && |fn| == |vn| <= 1 && |fc| == |vc| <= 1
    ensures var t1 := if fu == [] then tag else SetField(tag, fu[0], vu[0]);
            var t2 := if fn == [] then t1 else SetField(t1, fn[0], vn[0]);
            Assign(tag, fu + fn + fc, vu + vn + vc + tail) == if fc == [] then t2 else SetField(t2, fc[0], vc[0])
  {
    assert vu + vn + vc + tail == (vu + vn) + (vc + tail);
    AssignConcat(tag, fu + fn, vu + vn, fc, vc + tail);
    AssignConcat(tag, fu, vu, fn, vn);
    AssignAtMostOne(tag, fu, vu, []);
    assert vu + [] == vu;
    var t1 := Assign(tag, fu, vu);
    AssignAtMostOne(t1, fn, vn, []);
    assert vn + [] == vn;
    AssignAtMostOne(Assign(t1, fn, vn), fc, vc, tail);
  }

  /** The assembled assignments change exactly the supplied fields to the supplied values. */
  lemma AssignMeaning(tag: Tag, userId: Option<int>, name: Option<string>, content: Option<string>, guild: int, id: int)
    ensures Assign(tag, UpdateFields(userId, name, content), UpdateArgs(UpdateValues(userId, name, content), guild, id))
            == Tag(tag.guildId, userId.GetOr(tag.userId), name.GetOr(tag.name), content.GetOr(tag.content))
  {
    AssignThree(tag,
                if userId.Some? then [UserIdField] else [], if userId.Some? then [IntArg(userId.value)] else [],
                if name.Some? then [NameField] else [], if name.Some? then [TextArg(name.value)] else [],
                if content.Some? then [ContentField] else [], if content.Some? then [TextArg(content.value)] else [],
                [IntArg(guild), IntArg(id)]);
  }
}

=== FILE: routes.dfy ===
/** The five tag endpoints of the API service, each a pure transformer of the
    tag table: create, search, member listing, partial update and delete.
    Every request has already passed the administrator gate; the user
    directory (`ensure_user`) and the database connection are left out. */
module Routes {
  import opened Wrappers
  import opened Text
  import opened Tags
  import opened Queries

  // ---------------------------------------------------------------------------
  // Requests and responses
  // ---------------------------------------------------------------------------

  /** What a route answers: a JSON value, an `HTTPException` with status 400
      or 404, an exception the handler does not catch (status 500), or the
      refusal of the authorization decorators in front of the handler. */
  datatype Response<+T> =
    | Ok(value: T)
    | BadRequest(message: string)
    | NotFound(message: string)
    | Unhandled(reason: string)
    | Denied

  /** A response together with the table after the request. */
  datatype Step<+T> = Step(response: Response<T>, table: Table)

  /** The `user` object of a request body; only its `id` member is read. */
  datatype UserObject = UserObject(id: Option<int>)

  /** The JSON body of create and update: each member absent or present. */
  datatype Body = Body(user: Option<UserObject>, name: Option<string>, content: Option<string>)

  const MissingFieldMessage := "Missing \"user\", \"guild_id\", \"name\", or \"content\" JSON field."
  const DuplicateNameMessage := "Duplicate tag name provided."
  const ExclusiveParamsMessage := "\"name\" and \"query\" query params are mutually exclusive."
  const NoneFoundMessage := "None found."
  const InvalidUserIdMessage := "Invalid \"user_id\" query param."
  const NoFieldMessage := "Requires at least one of \"user\", \"name\" or \"content\" JSON field."
  const TagNotFoundMessage := "Tag not found."

  const MissingUserId := "KeyError: 'id'"
  const MissingUserIdParam := "KeyError: 'user_id'"
  const MissingMemberIdParam := "KeyError: 'member_id'"
  const ParameterCountMismatch := "InterfaceError: argument count differs from the parameters of the query"
  const UniqueViolation := "UniqueViolationError"
  const StatusWithoutCount := "IndexError"
  const StatusCountNotNumeric := "ValueError"

  /** The decorators `is_authorized` and `has_permissions(administrator=True)`
      in front of every tag route: `admitted` is their verdict, which depends
      on modules outside this model. A refused request never reaches the
      handler, so the table is left as it was. */
  function Guarded<T>(admitted: bool, t: Table, handler: Step<T>): (s: Step<T>)
    ensures !admitted ==> s.response == Denied && s.table == t
    ensures admitted ==> s == handler
  {
    if admitted then handler else Step(Denied, t)
  }

  /** A listing answers 404 "None found." when nothing matched. */
  function Found(rows: Table): (r: Response<Table>)
    ensures r.NotFound? <==> |rows| == 0
    ensures r.Ok? <==> |rows| > 0
    ensures r.Ok? ==> r.value == rows
    ensures r.NotFound? ==> r.message == NoneFoundMessage
  {
    if rows == map[] then NotFound(NoneFoundMessage) else Ok(rows)
  }

  // ---------------------------------------------------------------------------
  // POST /guilds/{guild_id}/tags
  // ---------------------------------------------------------------------------

  /** `user`, `name` and `content` are all present in the body. */
  predicate Complete(body: Body) {
    body.user.Some? && body.name.Some? && body.content.Some?
  }

  /** The row a complete body describes. */
  function NewRow(guild: int, body: Body): Tag
    requires Complete(body) && body.user.value.id.Some?
  {
    Tag(guild, body.user.value.id.value, body.name.value, body.content.value)
  }

  /** Creates a tag under the identifier `tagId`, which the handler draws from
      the snowflake generator before it looks at the body. The INSERT fails on
      either unique index, the primary key or `(guild_id, LOWER(name))`, and
      both failures answer the same 400. */
  function Create(t: Table, guild: int, tagId: int, body: Body): (s: Step<int>)
    ensures !Complete(body) ==> s == Step(BadRequest(MissingFieldMessage), t)
    ensures Complete(body) && body.user.value.id.None? ==> s == Step(Unhandled(MissingUserId), t)
    ensures s.response.Ok? <==>
              Complete(body) && body.user.value.id.Some? && tagId !in t && !NameTaken(t, guild, body.name.value)
    ensures s.response.Ok? ==> s.response.value == tagId && s.table == t[tagId := NewRow(guild, body)]
    ensures !s.response.Ok? ==> s.table == t
  {
    if !Complete(body) then Step(BadRequest(MissingFieldMessage), t)
    else if body.user.value.id.None? then Step(Unhandled(MissingUserId), t)
    else if tagId in t || NameTaken(t, guild, body.name.value) then Step(BadRequest(DuplicateNameMessage), t)
    else Step(Ok(tagId), t[tagId := NewRow(guild, body)])
  }

  /** With a fresh identifier, a complete body is refused as a duplicate
      exactly when its lower-cased name is already used in the guild. */
  lemma CreateDuplicate(t: Table, guild: int, tagId: int, body: Body)
    requires tagId !in t
    requires Complete(body) && body.user.value.id.Some?
    ensures Create(t, guild, tagId, body).response == BadRequest(DuplicateNameMessage)
            <==> NameTaken(t, guild, body.name.value)
  {
  }

  /** Creation keeps the unique index intact. */
  lemma CreatePreservesUnique(t: Table, guild: int, tagId: int, body: Body)
    requires Unique(t)
    ensures Unique(Create(t, guild, tagId, body).table)
  {
    var s := Create(t, guild, tagId, body);
    if s.response.Ok? {
      var row := NewRow(guild, body);
      forall i, j | i in s.table && j in s.table && i != j
        ensures !SameKey(s.table[i], s.table[j])
      {
        if i == tagId {
          assert !SameKey(t[j], row);
        } else if j == tagId {
          assert !SameKey(t[i], row);
        }
      }
    }
  }

  // ---------------------------------------------------------------------------
  // GET /guilds/{guild_id}/tags?name=...|?query=...
  // ---------------------------------------------------------------------------

  /** The rows satisfying the clauses bound to the arguments. */
  function Select(t: Table, cs: seq<Clause>, args: seq<Arg>): (rows: Table)
    requires |cs| == |args|
    ensures forall id :: id in rows ==> id in t && rows[id] == t[id]
  {
    map id | id in t && Satisfies(cs, args, t[id]) :: t[id]
  }

  /** The search as the handler is written: the arguments are the truthy
      members of `(guild_id, name, search_query)`, so an empty `name` or a
      guild id of 0 leaves a clause without its argument and the query fails. */
  function SearchAsWritten(t: Table, guild: int, name: Option<string>, query: Option<string>): (r: Response<Table>)
    ensures NonEmpty(name) && NonEmpty(query) ==> r == BadRequest(ExclusiveParamsMessage)
    ensures r.Ok? ==> |r.value| > 0 && forall id :: id in r.value ==> id in t && r.value[id] == t[id]
  {
    if NonEmpty(name) && NonEmpty(query) then BadRequest(ExclusiveParamsMessage)
    else
      var cs := SearchClauses(name, query);
      var args := SearchArgsAsWritten(guild, name, query);
      if |args| != |cs| then Unhandled(ParameterCountMismatch)
      else Found(Select(t, cs, args))
  }

  /** The search with one argument per clause: only absent parameters are dropped. */
  function Search(t: Table, guild: int, name: Option<string>, query: Option<string>): (r: Response<Table>)
    ensures NonEmpty(name) && NonEmpty(query) ==> r == BadRequest(ExclusiveParamsMessage)
    ensures r.Ok? ==> |r.value| > 0 && forall id :: id in r.value ==> id in t && r.value[id] == t[id]
    ensures !r.Unhandled?
  {
    if NonEmpty(name) && NonEmpty(query) then BadRequest(ExclusiveParamsMessage)
    else
      var cs := SearchClauses(name, query);
      var args := SearchArgs(guild, name, query);
      if |args| != |cs| then Unhandled(ParameterCountMismatch)
      else Found(Select(t, cs, args))
  }

  /** The rows the search promises, from the filter stated directly. */
  function Matching(t: Table, guild: int, name: Option<string>, query: Option<string>): Table {
    map id | id in t && SearchSpec(guild, name, query, t[id]) :: t[id]
  }

  /** The search answers 400 when both parameters are truthy, and otherwise
      every row of the guild that passes the name filters and no other, or 404
      when there is none. */
  lemma SearchMeaning(t: Table, guild: int, name: Option<string>, query: Option<string>)
    ensures Search(t, guild, name, query)
            == if NonEmpty(name) && NonEmpty(query) then BadRequest(ExclusiveParamsMessage)
               else Found(Matching(t, guild, name, query))
  {
    if !(NonEmpty(name) && NonEmpty(query)) {
      var cs := SearchClauses(name, query);
      var args := SearchArgs(guild, name, query);
      SearchArgsAligned(guild, name, query);
      forall id | id in t
        ensures Satisfies(cs, args, t[id]) <==> SearchSpec(guild, name, query, t[id])
      {
        SearchClausesMeaning(guild, name, query, t[id]);
      }
      assert Select(t, cs, args) == Matching(t, guild, name, query);
    }
  }

  /** The handler as written fails with a parameter-count error exactly when
      the request passes the exclusivity check but the guild id is 0 or `name`
      is the empty string. */
  lemma SearchAsWrittenFails(t: Table, guild: int, name: Option<string>, query: Option<string>)
    ensures SearchAsWritten(t, guild, name, query).Unhandled?
            <==> !(NonEmpty(name) && NonEmpty(query)) && (guild == 0 || name == Some(""))
  {
    SearchArgsAsWrittenCount(guild, name, query);
  }

  /** Outside those inputs the handler as written is the search. */
  lemma SearchAsWrittenAgrees(t: Table, guild: int, name: Option<string>, query: Option<string>)
    requires guild != 0 && name != Some("")
    ensures SearchAsWritten(t, guild, name, query) == Search(t, guild, name, query)
  {
    SearchArgsAsWrittenCount(guild, name, query);
  }

  /** A concrete request the handler as written cannot serve: `?name=` in guild 42. */
  lemma SearchAsWrittenEmptyName(t: Table)
    ensures SearchAsWritten(t, 42, Some(""), None) == Unhandled(ParameterCountMismatch)
    ensures !Search(t, 42, Some(""), None).Unhandled?
  {
    SearchArgsAsWrittenCount(42, Some(""), None);
  }

  /** An empty `name` next to a query passes the exclusivity check, because the check tests truthiness. */
  lemma EmptyNameWithQueryNotExclusive(t: Table, guild: int, query: string)
    ensures Search(t, guild, Some(""), Some(query)) != BadRequest(ExclusiveParamsMessage)
  {
    SearchMeaning(t, guild, Some(""), Some(query));
  }

  // ---------------------------------------------------------------------------
  // GET /guilds/{guild_id}/tags/members/{member_id}
  // ---------------------------------------------------------------------------

  /** The string path parameters the router extracts for the member route:
      only `member_id` (the guild id is converted separately). */
  function MemberPathParams(segment: string): map<string, string> {
    map["member_id" := segment]
  }

  /** The rows of a guild owned by one user. */
  function OwnedBy(t: Table, guild: int, owner: int): Table {
    map id | id in t && t[id].guildId == guild && t[id].userId == owner :: t[id]
  }

  /** The member listing as written: it reads the path parameter `user_id`,
      which the route never declares. */
  function MemberTagsAsWritten(t: Table, guild: int, params: map<string, string>): (r: Response<Table>)
    ensures "user_id" !in params ==> r == Unhandled(MissingUserIdParam)
  {
    if "user_id" !in params then Unhandled(MissingUserIdParam)
    else
      match ParseInt(params["user_id"])
      case None => BadRequest(InvalidUserIdMessage)
      case Some(u) => Found(OwnedBy(t, guild, u))
  }

  /** The member listing reading the parameter the route declares. */
  function MemberTags(t: Table, guild: int, params: map<string, string>): (r: Response<Table>)
    ensures r.Ok? ==> |r.value| > 0 && forall id :: id in r.value ==> id in t && r.value[id] == t[id]
  {
    if "member_id" !in params then Unhandled(MissingMemberIdParam)
    else
      match ParseInt(params["member_id"])
      case None => BadRequest(InvalidUserIdMessage)
      case Some(u) => Found(OwnedBy(t, guild, u))
  }

  /** Every request routed to the member listing fails as written. */
  lemma MemberTagsAsWrittenAlwaysFails(t: Table, guild: int, segment: string)
    ensures MemberTagsAsWritten(t, guild, MemberPathParams(segment)) == Unhandled(MissingUserIdParam)
  {
  }

  /** For every segment `int()` reads as a number, the listing is 404 "None
      found." when that user owns no tag in the guild, and otherwise exactly
      the rows of the guild listing whose owner is that user. */
  lemma MemberTagsMeaning(t: Table, guild: int, segment: string, owner: int)
    requires ParseInt(segment) == Some(owner)
    ensures MemberTags(t, guild, MemberPathParams(segment)) == Found(OwnedBy(t, guild, owner))
    ensures forall id :: id in OwnedBy(t, guild, owner) <==>
              id in Matching(t, guild, None, None) && Matching(t, guild, None, None)[id].userId == owner
  {
  }

  /** In particular the decimal numeral of a user id lists that user's tags. */
  lemma MemberTagsOfDecimal(t: Table, guild: int, owner: nat)
    ensures MemberTags(t, guild, MemberPathParams(Decimal(owner))) == Found(OwnedBy(t, guild, owner))
  {
    ParseDecimal(owner);
    MemberTagsMeaning(t, guild, Decimal(owner), owner);
  }

  /** The listing answers 400 exactly when the member segment is not an
      integer, and then always with the same message. */
  lemma MemberTagsInvalidId(t: Table, guild: int, segment: string)
    ensures MemberTags(t, guild, MemberPathParams(segment)).BadRequest? <==> ParseInt(segment).None?
    ensures ParseInt(segment).None? ==> MemberTags(t, guild, MemberPathParams(segment)) == BadRequest(InvalidUserIdMessage)
  {
  }

  // ---------------------------------------------------------------------------
  // PATCH /guilds/{guild_id}/tags/{id}
  // ---------------------------------------------------------------------------

  /** `WHERE guild_id = $idx AND id = $idx + 1` holds of row `id`. */
  predicate Where(args: seq<Arg>, idx: int, id: int, tag: Tag) {
    Param(args, idx) == Some(IntArg(tag.guildId)) && Param(args, idx + 1) == Some(IntArg(id))
  }

  /** The owner id the update assigns, if `user` was supplied. */
  function NewOwner(body: Body): Option<int>
    requires body.user.Some? ==> body.user.value.id.Some?
  {
    if body.user.Some? then body.user.value.id else None
  }

  /** The `names` list of an update body. */
  function PatchFields(body: Body): seq<Field>
    requires body.user.Some? ==> body.user.value.id.Some?
  {
    UpdateFields(NewOwner(body), body.name, body.content)
  }

  /** The arguments of an update body: `*updates, guild_id, tag_id`. */
  function PatchArgs(body: Body, guild: int, tagId: int): seq<Arg>
    requires body.user.Some? ==> body.user.value.id.Some?
  {
    UpdateArgs(UpdateValues(NewOwner(body), body.name, body.content), guild, tagId)
  }

  /** The keys of the rows the WHERE clause accepts. */
  function Hit(t: Table, args: seq<Arg>, idx: int): (hit: set<int>)
    ensures hit <= t.Keys
  {
    set k | k in t && Where(args, idx, k, t[k])
  }

  /** Every accepted row with the assignments applied; the others as they were. */
  function UpdateRows(t: Table, hit: set<int>, fields: seq<Field>, args: seq<Arg>): (u: Table)
    requires |fields| <= |args|
    ensures u.Keys == t.Keys
  {
    map k | k in t :: if k in hit then Assign(t[k], fields, args) else t[k]
  }

  /** Some updated row now shares its index key with another row. */
  predicate Collision(updated: Table, hit: set<int>)
    requires hit <= updated.Keys
  {
    exists k | k in hit :: NameTaken(updated - {k}, updated[k].guildId, updated[k].name)
  }

  /** The partial update as the handler assembles it: the field list and the
      parallel value list, the guild and id bound after them at `idx` and
      `idx + 1`, and the UPDATE applied to every row the WHERE clause accepts. */
  function Patch(t: Table, guild: int, tagId: int, body: Body): (s: Step<(int, Tag)>)
    ensures !s.response.Ok? ==> s.table == t
  {
    if body.user.None? && body.name.None? && body.content.None? then Step(BadRequest(NoFieldMessage), t)
    else if body.user.Some? && body.user.value.id.None? then Step(Unhandled(MissingUserId), t)
    else
      var fields := PatchFields(body);
      var args := PatchArgs(body, guild, tagId);
      var hit := Hit(t, args, NextParam(fields));
      if hit == {} then Step(NotFound(TagNotFoundMessage), t)
      else
        var updated := UpdateRows(t, hit, fields, args);
        if Collision(updated, hit) then Step(Unhandled(UniqueViolation), t)
        else
          PatchTarget(t, guild, tagId, body);
          Step(Ok((tagId, updated[tagId])), updated)
  }

  /** The WHERE clause, with the guild and the id at the positions the handler
      binds them, accepts the one row with both the guild and the id, if any. */
  lemma PatchTarget(t: Table, guild: int, tagId: int, body: Body)
    requires body.user.Some? ==> body.user.value.id.Some?
    ensures Hit(t, PatchArgs(body, guild, tagId), NextParam(PatchFields(body)))
            == if tagId in t && t[tagId].guildId == guild then {tagId} else {}
  {
    UpdateArgsPositions(NewOwner(body), body.name, body.content, guild, tagId);
  }

  /** The row the update would write: the supplied fields replaced, the rest kept. */
  function Patched(tag: Tag, body: Body): Tag
    requires body.user.Some? ==> body.user.value.id.Some?
  {
    Tag(tag.guildId, NewOwner(body).GetOr(tag.userId), body.name.GetOr(tag.name), body.content.GetOr(tag.content))
  }

  /** Updating the one target row writes the patched row there and nothing elsewhere. */
  lemma PatchRows(t: Table, guild: int, tagId: int, body: Body)
    requires body.user.Some? ==> body.user.value.id.Some?
    requires tagId in t
    ensures UpdateRows(t, {tagId}, PatchFields(body), PatchArgs(body, guild, tagId))
            == t[tagId := Patched(t[tagId], body)]
  {
    AssignMeaning(t[tagId], NewOwner(body), body.name, body.content, guild, tagId);
  }

  /** The update answers 400 with no field, an unhandled KeyError when the
      `user` object has no `id`, 404 when no row has both the guild and the id,
      an unhandled uniqueness failure when the new row would share its key with
      another row, and otherwise changes only that row and only in the
      supplied fields. */
  lemma PatchMeaning(t: Table, guild: int, tagId: int, body: Body)
    ensures Patch(t, guild, tagId, body)
            == if body.user.None? && body.name.None? && body.content.None? then Step(BadRequest(NoFieldMessage), t)
               else if body.user.Some? && body.user.value.id.None? then Step(Unhandled(MissingUserId), t)
               else if tagId !in t || t[tagId].guildId != guild then Step(NotFound(TagNotFoundMessage), t)
               else
                 var row := Patched(t[tagId], body);
                 if NameTaken(t - {tagId}, guild, row.name) then Step(Unhandled(UniqueViolation), t)
                 else Step(Ok((tagId, row)), t[tagId := row])
  {
    if !(body.user.None? && body.name.None? && body.content.None?) && !(body.user.Some? && body.user.value.id.None?) {
      PatchTarget(t, guild, tagId, body);
      if tagId in t && t[tagId].guildId == guild {
        var row := Patched(t[tagId], body);
        PatchRows(t, guild, tagId, body);
        var updated := t[tagId := row];
        assert updated - {tagId} == t - {tagId};
        assert Collision(updated, {tagId}) <==> NameTaken(t - {tagId}, guild, row.name);
      }
    }
  }

  /** The update keeps the unique index intact. */
  lemma PatchPreservesUnique(t: Table, guild: int, tagId: int, body: Body)
    requires Unique(t)
    requires body.user.Some? ==> body.user.value.id.Some?
    ensures Unique(Patch(t, guild, tagId, body).table)
  {
    PatchMeaning(t, guild, tagId, body);
    var s := Patch(t, guild, tagId, body);
    if s.response.Ok? {
      var row := Patched(t[tagId], body);
      forall i, j | i in s.table && j in s.table && i != j
        ensures !SameKey(s.table[i], s.table[j])
      {
        if i == tagId {
          assert j in t - {tagId};
        } else if j == tagId {
          assert i in t - {tagId};
        }
      }
    }
  }

  /** On a table that satisfies the index, an update that does not rename cannot collide. */
  lemma PatchWithoutNameNeverCollides(t: Table, guild: int, tagId: int, body: Body)
    requires Unique(t)
    requires body.user.Some? ==> body.user.value.id.Some?
    requires body.name.None?
    ensures !Patch(t, guild, tagId, body).response.Unhandled?
  {
    PatchMeaning(t, guild, tagId, body);
    if tagId in t && t[tagId].guildId == guild && NameTaken(t - {tagId}, guild, t[tagId].name) {
      var j :| j in t - {tagId} && t[j].guildId == guild && Lower(t[j].name) == Lower(t[tagId].name);
      assert SameKey(t[j], t[tagId]);
    }
  }

  // ---------------------------------------------------------------------------
  // DELETE /guilds/{guild_id}/tags/{id}
  // ---------------------------------------------------------------------------

  /** The command status PostgreSQL reports, such as `DELETE 1`. */
  function CommandStatus(verb: string, count: nat): string {
    verb + " " + Decimal(count)
  }

  /** `int(status.split()[1])`: the count the handler reads from a status. */
  function AffectedCount(status: string): (r: Response<int>)
    ensures r.Ok? || r.Unhandled?
    ensures r.Ok? <==> |Words(status)| >= 2 && ParseInt(Words(status)[1]).Some?
    ensures r.Ok? ==> r.value == ParseInt(Words(status)[1]).value
    ensures |Words(status)| < 2 ==> r == Unhandled(StatusWithoutCount)
  {
    var words := Words(status);
    if |words| < 2 then Unhandled(StatusWithoutCount)
    else
      match ParseInt(words[1])
      case None => Unhandled(StatusCountNotNumeric)
      case Some(n) => Ok(n)
  }

  /** The count is read back from every delete status. */
  lemma AffectedCountOfStatus(count: nat)
    ensures AffectedCount(CommandStatus("DELETE", count)) == Ok(count as int)
  {
    var d := Decimal(count);
    assert CommandStatus("DELETE", count) == "DELETE" + (" " + d);
    WordsOfWordThenSpace("DELETE", " " + d);
    assert (" " + d)[1..] == d;
    WordsOfWord(d);
    ParseDecimal(count);
  }

  /** Deletes every row with both the guild and the id, then answers from the reported count. */
  function Delete(t: Table, guild: int, tagId: int): (s: Step<()>)
    ensures s.response.Ok? <==> tagId in t && t[tagId].guildId == guild
    ensures s.response.Ok? ==> s.table == t - {tagId}
    ensures !s.response.Ok? ==> s.response == NotFound(TagNotFoundMessage) && s.table == t
  {
    var hit := set k | k in t && t[k].guildId == guild && k == tagId;
    var remaining := map k | k in t && k !in hit :: t[k];
    assert hit == (if tagId in t && t[tagId].guildId == guild then {tagId} else {});
    assert remaining == t - hit;
    AffectedCountOfStatus(|hit|);
    match AffectedCount(CommandStatus("DELETE", |hit|))
    case Ok(n) =>
      if n != 0 then Step(Ok(()), remaining) else Step(NotFound(TagNotFoundMessage), remaining)
    case Unhandled(x) => Step(Unhandled(x), remaining)
  }

  /** Deleting the same tag twice: the second request answers 404 and changes nothing. */
  lemma DeleteTwice(t: Table, guild: int, tagId: int)
    ensures var first := Delete(t, guild, tagId);
            Delete(first.table, guild, tagId) == Step(NotFound(TagNotFoundMessage), first.table)
  {
  }

  /** Deletion keeps the unique index intact. */
  lemma DeletePreservesUnique(t: Table, guild: int, tagId: int)
    requires Unique(t)
    ensures Unique(Delete(t, guild, tagId).table)
  {
  }

  /** Behind the decorators, the table changes only through a request that is
      both admitted and successful: a refused one, or one its handler
      answers with an error, leaves every row as it was. */
  lemma OnlyAdmittedSuccessChanges(admitted: bool, t: Table, guild: int, tagId: int, body: Body)
    ensures Guarded(admitted, t, Create(t, guild, tagId, body)).table != t ==>
              admitted && Create(t, guild, tagId, body).response.Ok?
    ensures Guarded(admitted, t, Patch(t, guild, tagId, body)).table != t ==>
              admitted && Patch(t, guild, tagId, body).response.Ok?
    ensures Guarded(admitted, t, Delete(t, guild, tagId)).table != t ==>
              admitted && Delete(t, guild, tagId).response.Ok?
    ensures !admitted ==> Guarded(admitted, t, Delete(t, guild, tagId)) == Step(Denied, t)
  {
  }
}

=== FILE: scenarios.dfy ===
/** Properties across several requests, and across the bot and the service:
    a created tag is found again by any spelling of its name, names collide
    only within a guild, the bot's update commands reach the service as
    single-field updates, and the documented create / find / update / delete
    walk-through. */
module Scenarios {
  import opened Wrappers
  import opened Text
  import opened Tags
  import opened Queries
  import opened Routes
  import opened Converter
  import opened Plugin

  /** After a successful create, searching the guild for the name in any
      letter case finds exactly the new tag. */
  lemma CreateThenFind(t: Table, guild: int, tagId: int, body: Body, probe: string)
    requires Create(t, guild, tagId, body).response.Ok?
    requires Lower(probe) == Lower(body.name.value)
    ensures Search(Create(t, guild, tagId, body).table, guild, Some(probe), None)
            == Ok(map[tagId := NewRow(guild, body)])
  {
    var t' := Create(t, guild, tagId, body).table;
    var row := NewRow(guild, body);
    SearchMeaning(t', guild, Some(probe), None);
    forall id | id in t
      ensures SearchSpec(guild, Some(probe), None, t[id]) ==> NameTaken(t, guild, body.name.value)
    {
    }
    assert Matching(t', guild, Some(probe), None) == map[tagId := row];
  }

  /** The same holds against the search as the service runs it, for a
      non-empty probe in a guild with a non-zero id. */
  lemma CreateThenFindAsWritten(t: Table, guild: int, tagId: int, body: Body, probe: string)
    requires Create(t, guild, tagId, body).response.Ok?
    requires Lower(probe) == Lower(body.name.value)
    requires guild != 0 && probe != ""
    ensures SearchAsWritten(Create(t, guild, tagId, body).table, guild, Some(probe), None)
            == Ok(map[tagId := NewRow(guild, body)])
  {
    CreateThenFind(t, guild, tagId, body, probe);
    SearchAsWrittenAgrees(Create(t, guild, tagId, body).table, guild, Some(probe), None);
  }

  /** A second create with the same name in another letter case, in the same
      guild, is refused as a duplicate and changes nothing. */
  lemma DuplicateInAnyCase(t: Table, guild: int, id1: int, body1: Body, id2: int, body2: Body)
    requires Create(t, guild, id1, body1).response.Ok?
    requires id2 != id1 && id2 !in t
    requires Complete(body2) && body2.user.value.id.Some?
    requires Lower(body2.name.value) == Lower(body1.name.value)
    ensures var t1 := Create(t, guild, id1, body1).table;
            Create(t1, guild, id2, body2) == Step(BadRequest(DuplicateNameMessage), t1)
  {
    var t1 := Create(t, guild, id1, body1).table;
    assert t1[id1].guildId == guild && Lower(t1[id1].name) == Lower(body2.name.value);
  }

  /** The same name is free in another guild. */
  lemma SameNameOtherGuild(t: Table, guild1: int, id1: int, body1: Body, guild2: int, id2: int, body2: Body)
    requires Create(t, guild1, id1, body1).response.Ok?
    requires guild2 != guild1 && id2 != id1 && id2 !in t
    requires Complete(body2) && body2.user.value.id.Some?
    requires !NameTaken(t, guild2, body2.name.value)
    ensures Create(Create(t, guild1, id1, body1).table, guild2, id2, body2).response == Ok(id2)
  {
    var t1 := Create(t, guild1, id1, body1).table;
    forall id | id in t1
      ensures t1[id].guildId == guild2 && Lower(t1[id].name) == Lower(body2.name.value)
              ==> NameTaken(t, guild2, body2.name.value)
    {
    }
  }

  /** A rename the bot sends changes only the name of that tag, provided the
      tag is in the guild and the new name is free there. */
  lemma RenameReachesService(t: Table, guild: int, author: Author, tag: ClientTag, newName: string)
    requires TagRename(guild, author, tag, newName).Send?
    requires tag.id in t && t[tag.id].guildId == guild
    requires !NameTaken(t - {tag.id}, guild, newName)
    ensures var req := TagRename(guild, author, tag, newName).request;
            var row := t[tag.id].(name := newName);
            Patch(t, req.guild, req.id, req.body) == Step(Ok((tag.id, row)), t[tag.id := row])
  {
    PatchMeaning(t, guild, tag.id, Body(None, Some(newName), None));
  }

  /** An edit the bot sends changes only the content of that tag. */
  lemma EditReachesService(t: Table, guild: int, author: Author, tag: ClientTag, newContent: string)
    requires Unique(t)
    requires TagEdit(guild, author, tag, newContent).Send?
    requires tag.id in t && t[tag.id].guildId == guild
    ensures var req := TagEdit(guild, author, tag, newContent).request;
            var row := t[tag.id].(content := newContent);
            Patch(t, req.guild, req.id, req.body) == Step(Ok((tag.id, row)), t[tag.id := row])
  {
    var body := Body(None, None, Some(newContent));
    PatchMeaning(t, guild, tag.id, body);
    PatchWithoutNameNeverCollides(t, guild, tag.id, body);
  }

  /** A transfer the bot sends changes only the owner of that tag. */
  lemma TransferReachesService(t: Table, guild: int, author: Author, tag: ClientTag, newOwner: int, display: string)
    requires Unique(t)
    requires TagTransfer(guild, author, tag, newOwner, display).Send?
    requires tag.id in t && t[tag.id].guildId == guild
    ensures var req := TagTransfer(guild, author, tag, newOwner, display).request;
            var row := t[tag.id].(userId := newOwner);
            Patch(t, req.guild, req.id, req.body) == Step(Ok((tag.id, row)), t[tag.id := row])
  {
    var body := Body(Some(SerializeUser(newOwner)), None, None);
    PatchMeaning(t, guild, tag.id, body);
    PatchWithoutNameNeverCollides(t, guild, tag.id, body);
  }

  /** A create the bot sends stores the author as owner with the given name
      and content, or is refused as a duplicate when the drawn id or the
      lower-cased name is already taken in the guild. */
  lemma CreateReachesService(t: Table, guild: int, author: Author, name: string, content: string, tagId: int)
    requires TagCreate(guild, author, name, content).Send?
    ensures var req := TagCreate(guild, author, name, content).request;
            Create(t, req.guild, tagId, req.body)
            == if tagId !in t && !NameTaken(t, guild, name) then Step(Ok(tagId), t[tagId := Tag(guild, author.id, name, content)])
               else Step(BadRequest(DuplicateNameMessage), t)
  {
  }

  /** A delete the bot sends removes exactly that tag when it is in the guild, and answers 404 otherwise. */
  lemma DeleteReachesService(t: Table, guild: int, author: Author, tag: ClientTag)
    requires TagDelete(guild, author, tag).Send?
    ensures var req := TagDelete(guild, author, tag).request;
            Delete(t, req.guild, req.id)
            == if tag.id in t && t[tag.id].guildId == guild then Step(Ok(()), t - {tag.id})
               else Step(NotFound(TagNotFoundMessage), t)
  {
  }

  /** `tag list` without an owner replies "There are no tags in this server!"
      exactly when the guild has no tag; otherwise the service lists every tag
      of the guild. */
  lemma ListWholeGuild(t: Table, guild: int)
    ensures TagListRequest(guild, None) == GetTags(guild)
    ensures Search(t, guild, None, None).NotFound? <==> forall id :: id in t ==> t[id].guildId != guild
    ensures Search(t, guild, None, None).NotFound? ==> TagListNotFoundReply(None) == "There are no tags in this server!"
    ensures Search(t, guild, None, None).Ok? ==>
              forall id :: id in Search(t, guild, None, None).value <==> id in t && t[id].guildId == guild
  {
    SearchMeaning(t, guild, None, None);
    EmptyTable(Matching(t, guild, None, None));
  }

  /** The listing as the service runs it agrees, for a guild with a non-zero id. */
  lemma ListWholeGuildAsWritten(t: Table, guild: int)
    requires guild != 0
    ensures SearchAsWritten(t, guild, None, None).NotFound? <==> forall id :: id in t ==> t[id].guildId != guild
    ensures SearchAsWritten(t, guild, None, None).Ok? ==>
              forall id :: id in SearchAsWritten(t, guild, None, None).value <==> id in t && t[id].guildId == guild
  {
    ListWholeGuild(t, guild);
    SearchAsWrittenAgrees(t, guild, None, None);
  }

  /** The walk-through: in an empty table, create "rule 1" for user 1 in guild
      42, find it as "RULE 1", replace its content, delete it, and see the next
      update answer 404. */
  lemma RuleOneWalkThrough(n: int)
    ensures var body := Body(Some(UserObject(Some(1))), Some("rule 1"), Some("Be nice."));
            var created := Create(map[], 42, n, body);
            && created == Step(Ok(n), map[n := Tag(42, 1, "rule 1", "Be nice.")])
            && Search(created.table, 42, Some("RULE 1"), None) == Ok(map[n := Tag(42, 1, "rule 1", "Be nice.")])
            && var edited := Patch(created.table, 42, n, Body(None, None, Some("Updated.")));
            && edited == Step(Ok((n, Tag(42, 1, "rule 1", "Updated."))), map[n := Tag(42, 1, "rule 1", "Updated.")])
            && var deleted := Delete(edited.table, 42, n);
            && deleted == Step(Ok(()), map[])
            && Patch(deleted.table, 42, n, Body(None, None, Some("Again."))) == Step(NotFound(TagNotFoundMessage), map[])
  {
    var body := Body(Some(UserObject(Some(1))), Some("rule 1"), Some("Be nice."));
    var empty: Table := map[];
    assert !NameTaken(empty, 42, "rule 1");
    assert Lower("RULE 1") == Lower("rule 1");
    CreateThenFind(empty, 42, n, body, "RULE 1");
    var created := Create(empty, 42, n, body);
    var edit := Body(None, None, Some("Updated."));
    PatchMeaning(created.table, 42, n, edit);
    var t1 := created.table;
    assert t1 - {n} == map[];
    var edited := Patch(t1, 42, n, edit);
    assert edited.table - {n} == map[];
    PatchMeaning(map[], 42, n, Body(None, None, Some("Again.")));
  }
}

=== FILE: tags.dfy ===
/** The persisted tag table `tags(id, user_id, guild_id, name, content)` and the
    unique constraint on `(guild_id, LOWER(name))`. */
module Tags {
  import opened Text

  /** One row of the table, without its key. */
  datatype Tag = Tag(guildId: int, userId: int, name: string, content: string)

  /** The table, keyed by tag id (the primary key). */
  type Table = map<int, Tag>

  /** The columns the search and member-listing queries select: `id, user_id, name, content`. */
  datatype Record = Record(id: int, userId: int, name: string, content: string)

  function ToRecord(id: int, tag: Tag): Record {
    Record(id, tag.userId, tag.name, tag.content)
  }

  /** Two tags collide under the unique index when they share a guild and a lower-cased name. */
  predicate SameKey(a: Tag, b: Tag) {
    a.guildId == b.guildId && Lower(a.name) == Lower(b.name)
  }

  /** Some row of `t` already holds the index key `(guild, LOWER(name))`. */
  predicate NameTaken(t: Table, guild: int, name: string) {
    exists id | id in t :: t[id].guildId == guild && Lower(t[id].name) == Lower(name)
  }

  /** The unique constraint holds: no two rows share a guild and a lower-cased name. */
  ghost predicate Unique(t: Table) {
    forall i, j :: i in t && j in t && i != j ==> !SameKey(t[i], t[j])
  }

  /** A table without keys is the empty table. */
  lemma EmptyTable(m: Table)
    ensures m == map[] <==> forall id :: id !in m
  {
    if forall id :: id !in m {
      assert m.Keys == {};
    }
  }

  /** `rs` is a listing of exactly the rows of `rows`, each in its selected columns, in some order. */
  ghost predicate Lists(rs: seq<Record>, rows: Table) {
    && (forall i :: 0 <= i < |rs| ==> rs[i].id in rows && rs[i] == ToRecord(rs[i].id, rows[rs[i].id]))
    && (forall id :: id in rows ==> exists i :: 0 <= i < |rs| && rs[i].id == id)
  }
}

=== FILE: text.dfy ===
/** String helpers the tag service relies on: lower-casing (SQL `LOWER` and
    Python's `str.lower`), substring search (what `LIKE '%q%'` decides),
    whitespace splitting (`str.split()`) and decimal numerals (`int(...)` and
    the counts PostgreSQL prints in a command status). */
module Text {
  import opened Wrappers

  // ---------------------------------------------------------------------------
  // Lower-casing
  // ---------------------------------------------------------------------------

  predicate IsUpper(c: char) {
    'A' <= c <= 'Z'
  }

  function LowerChar(c: char): char {
    if IsUpper(c) then (c as int + 32) as char else c
  }

  /** Lower-cases every ASCII capital and leaves every other character alone. */
  function Lower(s: string): (r: string)
    ensures |r| == |s|
    ensures forall i :: 0 <= i < |s| ==> r[i] == LowerChar(s[i])
  {
    seq(|s|, i requires 0 <= i < |s| => LowerChar(s[i]))
  }

  /** Lower-casing works character by character, so it distributes over concatenation. */
  lemma LowerConcat(a: string, b: string)
    ensures Lower(a + b) == Lower(a) + Lower(b)
  {
    assert forall i :: 0 <= i < |a + b| ==> Lower(a + b)[i] == (Lower(a) + Lower(b))[i];
  }

  // ---------------------------------------------------------------------------
  // Substrings
  // ---------------------------------------------------------------------------

  /** `p` occurs in `s` starting at position `k`. */
  predicate OccursAt(p: string, s: string, k: int) {
    0 <= k && k + |p| <= |s| && s[k..k + |p|] == p
  }

  /** `p` occurs somewhere inside `s`. */
  predicate IsSubstring(p: string, s: string) {
    exists k | 0 <= k <= |s| - |p| :: OccursAt(p, s, k)
  }

  // ---------------------------------------------------------------------------
  // Whitespace splitting
  // ---------------------------------------------------------------------------

  /** The characters Python's `str.split()` treats as separators. */
  predicate IsSpace(c: char) {
    || c == ' '
    || 9 <= c as int <= 13
    || 28 <= c as int <= 31
    || c as int == 0x85
    || c as int == 0xA0
    || c as int == 0x1680
    || 0x2000 <= c as int <= 0x200A
    || c as int == 0x2028
    || c as int == 0x2029
    || c as int == 0x202F
    || c as int == 0x205F
    || c as int == 0x3000
  }

  predicate NoSpace(s: string) {
    forall i :: 0 <= i < |s| ==> !IsSpace(s[i])
  }

  /** The longest prefix of `s` that holds no separator. */
  function FirstWord(s: string): (w: string)
    ensures w <= s
    ensures NoSpace(w)
    ensures |w| < |s| ==> IsSpace(s[|w|])
    ensures |s| > 0 && !IsSpace(s[0]) ==> |w| >= 1
    decreases |s|
  {
    if |s| == 0 || IsSpace(s[0]) then [] else [s[0]] + FirstWord(s[1..])
  }

  /** `str.split()` with no arguments: the maximal runs of non-separators, in order. */
  function Words(s: string): (ws: seq<string>)
    ensures forall i :: 0 <= i < |ws| ==> |ws[i]| >= 1 && NoSpace(ws[i])
    decreases |s|
  {
    if |s| == 0 then []
    else if IsSpace(s[0]) then Words(s[1..])
    else
      var w := FirstWord(s);
      [w] + Words(s[|w|..])
  }

  /** A word with nothing or a separator after it is taken whole. */
  lemma {:induction false} FirstWordOf(w: string, rest: string)
    requires NoSpace(w)
    requires rest == [] || IsSpace(rest[0])
    ensures FirstWord(w + rest) == w
    decreases |w|
  {
    if w != [] {
      assert (w + rest)[1..] == w[1..] + rest;
      FirstWordOf(w[1..], rest);
    }
  }

  /** Splitting a word followed by a separator and more text. */
  lemma WordsOfWordThenSpace(w: string, rest: string)
    requires |w| >= 1 && NoSpace(w)
    requires |rest| >= 1 && IsSpace(rest[0])
    ensures Words(w + rest) == [w] + Words(rest[1..])
  {
    FirstWordOf(w, rest);
    assert (w + rest)[|w|..] == rest;
  }

  /** A single word splits into itself. */
  lemma WordsOfWord(w: string)
    requires |w| >= 1 && NoSpace(w)
    ensures Words(w) == [w]
  {
    FirstWordOf(w, []);
    assert w + [] == w;
  }

  // ---------------------------------------------------------------------------
  // Decimal numerals
  // ---------------------------------------------------------------------------

  predicate IsDigit(c: char) {
    '0' <= c <= '9'
  }

  predicate AllDigits(s: string) {
    forall i :: 0 <= i < |s| ==> IsDigit(s[i])
  }

  function DigitChar(d: nat): (c: char)
    requires d < 10
    ensures IsDigit(c)
  {
    ('0' as int + d) as char
  }

  function DigitValue(c: char): nat
    requires IsDigit(c)
  {
    c as int - '0' as int
  }

  /** The shortest decimal numeral of `n`, as PostgreSQL prints row counts. */
  function Decimal(n: nat): (r: string)
    ensures |r| >= 1 && AllDigits(r)
    ensures NoSpace(r)
  {
    if n < 10 then [DigitChar(n)] else Decimal(n / 10) + [DigitChar(n % 10)]
  }

  function DigitsValue(s: string): nat
    requires AllDigits(s)
  {
    if |s| == 0 then 0 else DigitsValue(s[..|s| - 1]) * 10 + DigitValue(s[|s| - 1])
  }

  /** The unsigned-numeral part of Python's `int(s)`: the value of a
      non-empty run of ASCII digits, and `None` for anything else. */
  function ParseNat(s: string): (r: Option<nat>)
    ensures r.Some? <==> |s| >= 1 && AllDigits(s)
  {
    if |s| >= 1 && AllDigits(s) then Some(DigitsValue(s)) else None
  }

  /** Python's `int(s)` on a word: an optional sign and an unsigned numeral;
      `None` where Python raises `ValueError`. */
  function ParseInt(s: string): (r: Option<int>)
    ensures |s| >= 1 && IsDigit(s[0]) ==> r == (match ParseNat(s) case Some(n) => Some(n as int) case None => None)
  {
    if |s| >= 1 && (s[0] == '-' || s[0] == '+') then
      match ParseNat(s[1..])
      case Some(n) => Some(if s[0] == '-' then -(n as int) else n as int)
      case None => None
    else
      match ParseNat(s)
      case Some(n) => Some(n as int)
      case None => None
  }

  /** Reading back a printed count gives the count. */
  lemma {:induction false} ParseDecimal(n: nat)
    ensures ParseNat(Decimal(n)) == Some(n)
    ensures ParseInt(Decimal(n)) == Some(n as int)
    ensures DigitsValue(Decimal(n)) == n
  {
    var s := Decimal(n);
    if n >= 10 {
      ParseDecimal(n / 10);
      assert s[..|s| - 1] == Decimal(n / 10);
      assert DigitValue(s[|s| - 1]) == n % 10;
    } else {
      assert s[..0] == [];
      assert DigitValue(s[0]) == n;
      assert DigitsValue(s) == n;
    }
    assert ParseNat(s) == Some(DigitsValue(s));
  }
}

=== FILE: wrappers.dfy ===
/** The optional value used for absent JSON fields, query parameters and path parameters. */
module Wrappers {

  /** Python's `None` versus a present value. */
  datatype Option<+T> = None | Some(value: T) {

    /** The present value, or `default` when absent. */
    function GetOr(default: T): T {
      match this
      case Some(v) => v
      case None => default
    }
  }
}
